=== FILE: README.md ===
# EZ2China booking, pricing and rewards — a Dafny model

This project models the business logic of the EZ2China travel-agency front end:

- the static catalog of tours and map regions, with lookup by id;
- the pricing and rewards engine of the tour page's booking widget. It computes the per-person base price of the chosen mode (GROUP or PRIVATE), the tiered group discount (5% for two people, 8% for three or more), the total, the cashback credited to the wallet, and the referral commission;
- the booking widget's inputs and its submit handler. A PRIVATE booking without a date is refused. Otherwise a PENDING booking is built and committed as "append the booking, then credit the cashback";
- the in-memory session store: a wallet, an append-only booking history and a custom plan of destinations that is unique by region id;
- the home page listing: the category filter read from the `cat` URL parameter, the highlighted filter pill, and each card's group progress and "seats left" badge.

Money, rates and map percentages are exact `real` numbers; group sizes are `nat`. Every operation is a pure function from values to values. The store's operations map one `Session` value to the next.

Modules, one per component: `Types` (types.ts), `Catalog` (services/tours.ts, services/regions.ts), `Pricing` and `BookingFlow` (pages/TourDetail.tsx), `GroupStatus` (the progress computation shared by pages/TourDetail.tsx and pages/Home.tsx), `Listing` (pages/Home.tsx), `CustomPlan` and `Session` (context/AppContext.tsx).

Beyond the single-call contracts, the model proves these properties:

- The session invariant says the wallet is non-negative, plan ids are distinct, and every booking is for at least one person at a non-negative price. It holds initially, and the plan operations keep it unconditionally. `AddToWallet` keeps it for a non-negative amount, and `AddBooking` for a booking with at least one person and a non-negative total. A submission on a valid tour from the widget supplies both conditions (`BookingFlow.SubmitKeepsInvariant`).
- The wallet always equals the summed cashback of the recorded bookings. Each cashback is recomputed from the booking's catalog tour and its stored total (`BookingFlow.Reconciled`).

Notes on the code's behaviour:

- `addToWallet` accepts any amount. The store keeps a non-negative wallet only when the credits are non-negative, which holds for cashback on valid tours.
- The discount rate for three or more is 8%, as the tour page applies and the listing page advertises. The chat assistant's prompt text says 10%; that text does not affect any price.
- An empty `cat` parameter is falsy in the code, so it lists the whole catalog.
- The progress bar divides by `minGroupSize`. With a zero minimum the quotient is +Infinity, which is capped to 100, or NaN when nobody has joined. The NaN case is modelled as `None`.

## Model

| member | source | states |
|---|---|---|
| Catalog.GetTours | services/tours.ts:3-109 | The catalog, in declaration order, has pairwise distinct ids. Every tour has non-negative prices, currentGroupSize ≤ maxGroupSize, minGroupSize ≤ maxGroupSize, and cashback and commission rates in [0,1]. |
| Catalog.GetRegions | services/regions.ts:4-72 | The region catalog, in declaration order, has distinct ids. Every x and y lies in [0,100]. Every linked tour id names a catalog tour. |
| Catalog.FindTour | services/tours.ts:110 | `find` by id gives none exactly when no tour has the id. Otherwise it gives a tour of the list with that id, and no earlier tour has it. |
| Catalog.GetTourById | services/tours.ts:110 | Lookup in the catalog gives none iff no catalog tour has the id. A result is a catalog tour carrying that id. |
| Catalog.FindOwnId | services/tours.ts:110 | In a list with distinct ids, looking up a member's own id returns exactly that member. |
| Catalog.CatalogLookupRoundTrip | services/tours.ts:5-110 | Every catalog tour (t1, t2, t3) is found again by its own id. |
| Catalog.RegionLinkShape | services/regions.ts:16-68 | r_beijing and r_chengdu link no tour; every other region links exactly one. |
| Pricing.BasePrice | pages/TourDetail.tsx:43 | The per-person base is the group price in GROUP mode and the private price in PRIVATE mode. |
| Pricing.DiscountTier | pages/TourDetail.tsx:44-56 | The couple tier applies iff GROUP with exactly 2 people; the group tier applies iff GROUP with 3 or more. |
| Pricing.DiscountRate | pages/TourDetail.tsx:44-56 | The rate lies in [0,1). It is 0 in PRIVATE mode, 0 for a group of at most one, 0.05 for two and 0.08 for three or more. |
| Pricing.PriceQuote | pages/TourDetail.tsx:43-63 | The quote's base, tier (the label shown) and rate are those of the mode and head count, and the rate is the tier's rate. Total = base × (1 − rate) × participants. Cashback and commission are the total times the tour's rates. |
| Pricing.Decrement | pages/TourDetail.tsx:293 | The minus button never goes below 1: it subtracts one above 1 and gives 1 otherwise. |
| Pricing.Increment | pages/TourDetail.tsx:300 | The plus button adds exactly one; no upper bound is enforced. |
| Pricing.ShowsDiscountLine | pages/TourDetail.tsx:321 | The "Discount" line of the breakdown is drawn iff the discount rate is positive. |
| Pricing.ShowsTierLabel | pages/TourDetail.tsx:308 | The tier label is drawn iff the booking is a GROUP booking of two or more; never for a PRIVATE one. |
| Pricing.TotalWithinGross | pages/TourDetail.tsx:58-59 | For a valid tour, 0 ≤ total ≤ base × participants. The displayed discount, base × participants − total, equals gross × rate and so reconciles exactly. |
| Pricing.DiscountLineIffTierLabel | pages/TourDetail.tsx:307-326 | The "Discount" line (rate > 0) is drawn iff the tier label is drawn (GROUP and more than one person). This holds for every tour. The amount is then positive whenever the base price is. |
| Pricing.RewardsWithinTotal | pages/TourDetail.tsx:62-63 | For a valid tour, cashback and commission each lie between 0 and the total. |
| Pricing.TotalMonotoneInParticipants | pages/TourDetail.tsx:44-59 | Across the tier boundaries, adding a person never lowers the total. |
| Pricing.PrivateNeverDiscounted | pages/TourDetail.tsx:43-59 | A PRIVATE total is privatePrice × participants with the base tier, for any head count. |
| Pricing.XianQuotes | pages/TourDetail.tsx:43-62 | The Xi'an tour worked examples: 1 in a group pays 6800 with the base tier. 2 pay 12920 with the couple tier, earning cashback 646. 4 in a group pay 25024 with the group tier. 4 on a private trip pay 34000 with no discount. |
| GroupStatus.IsConfirmed | pages/TourDetail.tsx:67 | A group is confirmed iff current ≥ min; a zero minimum is always confirmed. |
| GroupStatus.ProgressPercent | pages/TourDetail.tsx:66 | Progress is NaN only for 0/0; otherwise it lies in [0,100]. Below a positive minimum it is exactly current/min × 100. It reaches 100 iff the group is confirmed (current ≥ min). |
| GroupStatus.GroupBadge | pages/TourDetail.tsx:158-162 | The badge is "full" iff confirmed. Otherwise it shows a count of at least 1 that brings current up to min. |
| Listing.IsSet | pages/Home.tsx:20 | The `cat` value is in effect iff it is present and non-empty: an absent or empty value is falsy. |
| Listing.OfCategory | pages/Home.tsx:21 | A tour is kept iff it is in the list and its category's name equals the filter. The result is no longer than the input. |
| Listing.ListedTours | pages/Home.tsx:18-24 | With no filter, or an empty one, the whole catalog is listed. Otherwise the listed tours are exactly the catalog tours of that category name. |
| Listing.OfCategoryAppend | pages/Home.tsx:21 | Filtering distributes over concatenation, so catalog order is kept. |
| Listing.OfCategoryIdempotent | pages/Home.tsx:21 | Filtering an already filtered list by the same category changes nothing. |
| Listing.CategoryListings | pages/Home.tsx:19-21 | STUDY lists only t1, BUSINESS only t2 and TOURISM only t3. A name no tour has, such as ALL, lists nothing. |
| Listing.PillTarget | pages/Home.tsx:80-83 | Clicking "ALL" clears the parameter; any other pill sets it to the pill's id. |
| Listing.PillActive | pages/Home.tsx:85 | With no filter, or an empty one, the "ALL" pill is highlighted (and with no filter, only it). With a filter in effect, a pill is highlighted iff its id equals the filter. A highlighted pill other than "ALL" has exactly the filter as its id. |
| Listing.ExactlyOnePillActive | pages/Home.tsx:72-85 | Exactly one pill is highlighted when the filter is absent, empty or a pill id. No pill is highlighted for any other value. |
| Listing.ClickedPillIsTheActiveOne | pages/Home.tsx:80-85 | After a pill is clicked, that pill and no other is highlighted. |
| Listing.CardStatus | pages/Home.tsx:111-112 | A card's progress is NaN only for 0/0; otherwise it lies in [0,100] and is exactly current/min × 100 below a positive minimum. Its badge is "full" iff current ≥ min, and a full card's progress is 100. Otherwise the seats-left count is min − current, at least 1. |
| Listing.CatalogCardsAllOpen | pages/Home.tsx:132-136 | No catalog group has reached its minimum: the cards show 2, 3 and 6 seats left. |
| CustomPlan.Add | context/AppContext.tsx:52-56 | Afterwards the plan holds the id. An existing id leaves the plan unchanged; a new one is appended at the end. Distinct ids stay distinct. |
| CustomPlan.Remove | context/AppContext.tsx:58-60 | Afterwards no entry has the id. Exactly the entries with other ids remain. The plan never grows, and an absent id is a no-op. |
| CustomPlan.Clear | context/AppContext.tsx:62 | The cleared plan is empty (and so trivially free of duplicate ids). |
| CustomPlan.RemoveAppend | context/AppContext.tsx:59 | Removal distributes over concatenation, so the kept entries stay in order. |
| CustomPlan.AddIdempotent | context/AppContext.tsx:52-56 | Adding the same region twice equals adding it once. |
| CustomPlan.AddThenRemove | context/AppContext.tsx:52-60 | Adding a region whose id is new and then removing that id restores the original plan. |
| CustomPlan.RemoveKeepsDistinct | context/AppContext.tsx:58-60 | Removal keeps plan ids pairwise distinct. |
| Session.DefaultUser | context/AppContext.tsx:25-33 | The default user has a zero wallet and no bookings, and is a member. |
| Session.InitialSession | context/AppContext.tsx:37-42 | A fresh session has the default user, language zh, both panels closed and an empty plan, and satisfies the store invariant. |
| Session.AddToWallet | context/AppContext.tsx:44-46 | Wallet becomes old + amount. Bookings, account fields, language, flags and plan are unchanged. A non-negative credit keeps the invariant. |
| Session.AddBooking | context/AppContext.tsx:48-50 | The history grows by exactly one: the old history is its prefix and the new booking is last. The wallet and everything else are unchanged, A booking for at least one person at a non-negative total keeps the invariant. |
| Session.AddToPlan | context/AppContext.tsx:52-56 | The new plan is `CustomPlan.Add` of the old one: it then holds the region's id. If the id was already there, the session is unchanged; otherwise the region is appended after the old entries. The user is untouched and the invariant is kept. |
| Session.RemoveFromPlan | context/AppContext.tsx:58-60 | The new plan is `CustomPlan.Remove` of the old one: the id is gone, exactly the entries with other ids remain, and an absent id leaves the session unchanged. The user is untouched and the invariant (distinct ids) is kept. |
| Session.ClearPlan | context/AppContext.tsx:62 | The plan is empty; the user is untouched and the invariant is kept. |
| Session.CommitOrderIrrelevant | context/AppContext.tsx:44-50 | Recording a booking and crediting the wallet are independent: either order gives the same session. |
| Session.CreditsAccumulate | context/AppContext.tsx:44-46 | Two credits equal one credit of their sum. |
| BookingFlow.InitialWidget | pages/TourDetail.tsx:20-22 | The widget opens in GROUP mode with one person and no date. |
| BookingFlow.Step | pages/TourDetail.tsx:233-300 | Plus adds one person and minus removes one down to a floor of 1; neither touches the mode or the chosen date. The mode and date controls set their own field and leave the head count and the other field alone. |
| BookingFlow.Run | pages/TourDetail.tsx:232-303 | Starting from at least one person, no sequence of widget inputs brings the head count below one. Inputs other than the stepper leave it unchanged. |
| Types.TitleIn | pages/TourDetail.tsx:35 | The title is the English one in English and the Chinese one in Chinese. |
| BookingFlow.NewBooking | pages/TourDetail.tsx:76-85 | The booking carries the given fresh id, the tour's id and its title in the session language. Its date is the tour's start date in GROUP mode and the chosen date in PRIVATE mode. Its type is the mode, its status PENDING, and its head count and total are the ones just priced. |
| BookingFlow.Submit | pages/TourDetail.tsx:69-93 | The submission is refused iff PRIVATE with an empty date, and then nothing changes. Otherwise exactly that booking is appended, the wallet rises by exactly the quoted cashback, and the account, flags and plan are unchanged. |
| BookingFlow.SubmitKeepsInvariant | pages/TourDetail.tsx:69-93 | For a valid tour and at least one person, a committed submission keeps the store invariant. |
| BookingFlow.SubmitKeepsReconciled | pages/TourDetail.tsx:76-90 | Booking a catalog tour keeps the wallet equal to the summed cashback of the booking history. |
| BookingFlow.PlanChangesKeepReconciled | context/AppContext.tsx:52-62 | Plan operations keep the wallet reconciled with the history. |
| BookingFlow.InitialReconciled | context/AppContext.tsx:25-33 | A fresh session is reconciled: nothing booked, nothing credited. |
| BookingFlow.CoupleBookingExample | pages/TourDetail.tsx:49-90 | Two people booking the Xi'an group from a fresh session commit a 12920 booking dated 2024-07-15. One booking is recorded and the wallet holds 646. |
| BookingFlow.PrivateWithoutDateExample | pages/TourDetail.tsx:71-74 | A private Xi'an booking for four without a date is refused with "date required". |

## Left out

- Localised prose and labels are not modelled: subtitles, descriptions, features, itineraries, locations, images and the user's avatar. The couple and group labels come from a translation table (utils/translations is not part of this model). The base label is a literal in the page ("基础价格" / "Base Price"), but the page never draws it, because the label line appears only for a GROUP booking of two or more. The model keeps the tier each label names (`Pricing.Tier`).
- Floating point is not modelled. The source computes in IEEE-754 doubles and formats with `toLocaleString`; the model uses exact rationals, which are the values the code intends. No rounding is applied because the source applies none.
- The 800 ms `setTimeout` before the commit is modelled as one atomic step. A second click while a commit is pending is not modelled. The success screen flag `isBooked` is not modelled.
- The booking id `bk_${Date.now()}` reads the clock, so it is a parameter of `BookingFlow.Submit`.
- The alert shown on a refused booking is a browser dialog; the model returns `Rejected(DateRequired)` instead.
- `setLanguage`, `setCartOpen` and `setChatOpen` are plain stored setters with no logic. The session carries the values, but the setters are not modelled.
- React state batching is not modelled. `addToPlan` reads the captured plan rather than the latest one; the store is modelled sequentially.
- View markup, routing, the map explorer and contact pages, and the chat widget with its network call to the language-model service are not modelled. The map and contact pages change state only through the plan operations, which are modelled.
- The pricing engine has no hidden state. Calling it twice with the same inputs gives the same quote, because Dafny functions are deterministic; no separate lemma states this.
- Pricing.DiscountLineIffTierLabel: states the discount amount is positive only when the base price is positive. A zero-priced tour shows a zero discount line.

=== FILE: bookingflow.dfy ===
/** The booking widget of a tour page: its input state (mode, head count,
    chosen date), the submit handler that validates the input, prices it and
    commits the booking together with its cashback into the session, and the
    bookkeeping invariant that ties the wallet to the booking history. */
module BookingFlow {
  import opened Types
  import Pricing
  import Catalog
  import S = Session

  /** What the visitor has chosen in the widget so far. */
  datatype Widget = Widget(mode: Mode, participants: int, customDate: string)

  /** The widget as a tour page opens: group mode, one person, no date. */
  function InitialWidget(): (w: Widget)
    ensures w.mode == Group && w.participants == 1 && w.customDate == ""
  {
    Widget(Group, 1, "")
  }

  /** The controls of the widget. */
  datatype Input = Minus | Plus | PickMode(mode: Mode) | PickDate(date: string)

  function Step(w: Widget, input: Input): (r: Widget)
    ensures w.participants >= 1 ==> r.participants >= 1
    ensures input.Plus? ==> r.participants == w.participants + 1
    ensures input.Minus? && w.participants > 1 ==> r.participants == w.participants - 1
    ensures input.Minus? && w.participants <= 1 ==> r.participants == 1
    ensures !input.Plus? && !input.Minus? ==> r.participants == w.participants
    ensures input.Plus? || input.Minus? ==> r.customDate == w.customDate
    ensures input.PickMode? ==> r.mode == input.mode && r.customDate == w.customDate
    ensures input.PickDate? ==> r.customDate == input.date && r.mode == w.mode
    ensures !input.PickMode? ==> r.mode == w.mode
  {
    match input
    case Minus => w.(participants := Pricing.Decrement(w.participants))
    case Plus => w.(participants := Pricing.Increment(w.participants))
    case PickMode(m) => w.(mode := m)
    case PickDate(d) => w.(customDate := d)
  }

  /** The widget after a sequence of inputs. The head count never drops below
      one, and only the stepper moves it. */
  function Run(w: Widget, inputs: seq<Input>): (r: Widget)
    ensures w.participants >= 1 ==> r.participants >= 1
    ensures (forall k :: 0 <= k < |inputs| ==> !inputs[k].Minus? && !inputs[k].Plus?)
            ==> r.participants == w.participants
    decreases |inputs|
  {
    if |inputs| == 0 then w
    else Run(Step(w, inputs[0]), inputs[1..])
  }

  datatype BookingError = DateRequired

  datatype Submission = Rejected(error: BookingError) | Committed(booking: Booking, session: S.Session)

  /** The booking record the handler builds, before it is committed. */
  function NewBooking(t: Tour, w: Widget, lang: Language, bookingId: string): (b: Booking)
    ensures b.id == bookingId && b.tourId == t.id && b.tourTitle == TitleIn(t, lang)
    ensures b.date == (if w.mode == Group then t.startDate else w.customDate)
    ensures b.kind == w.mode && b.status == Pending && b.participants == w.participants
    ensures b.totalPrice == Pricing.PriceQuote(t, w.mode, w.participants).totalPrice
  {
    var q := Pricing.PriceQuote(t, w.mode, w.participants);
    Booking(
      bookingId,
      t.id,
      TitleIn(t, lang),
      if w.mode == Group then t.startDate else w.customDate,
      w.participants,
      q.totalPrice,
      w.mode,
      Pending)
  }

  /** The submit handler. A private booking without a date is refused and
      nothing changes; otherwise the booking is appended and its cashback
      credited, as one step. `bookingId` stands for the fresh id the source
      derives from the clock. */
  function Submit(s: S.Session, t: Tour, w: Widget, bookingId: string): (r: Submission)
    ensures r.Rejected? <==> w.mode == Private && w.customDate == ""
    ensures r.Committed? ==>
      && r.booking == NewBooking(t, w, s.language, bookingId)
      && r.session.user.bookings == s.user.bookings + [r.booking]
      && r.session.user.walletBalance
           == s.user.walletBalance + Pricing.PriceQuote(t, w.mode, w.participants).cashback
      && S.SameAccount(s.user, r.session.user) && S.SameSurroundings(s, r.session)
      && r.session.plan == s.plan
  {
    if w.mode == Private && w.customDate == "" then
      Rejected(DateRequired)
    else
      var b := NewBooking(t, w, s.language, bookingId);
      var q := Pricing.PriceQuote(t, w.mode, w.participants);
      Committed(b, S.AddToWallet(S.AddBooking(s, b), q.cashback))
  }

  /** A submission for a valid tour from a widget with at least one person
      keeps every invariant of the session store. */
  lemma SubmitKeepsInvariant(s: S.Session, t: Tour, w: Widget, bookingId: string)
    requires S.Invariant(s) && ValidTour(t) && w.participants >= 1
    ensures Submit(s, t, w, bookingId).Committed? ==> S.Invariant(Submit(s, t, w, bookingId).session)
  {
    Pricing.TotalWithinGross(t, w.mode, w.participants);
    Pricing.RewardsWithinTotal(t, w.mode, w.participants);
  }

  /** The cashback a recorded booking earned, recomputed from its tour in the
      catalog and the total stored on the booking. */
  function BookingCashback(b: Booking): real
  {
    match Catalog.GetTourById(b.tourId)
    case None => 0.0
    case Some(t) => b.totalPrice * t.cashbackRate
  }

  /** The sum of the cashback of a booking history. */
  function Credits(bookings: seq<Booking>): real
    decreases |bookings|
  {
    if |bookings| == 0 then 0.0
    else Credits(bookings[..|bookings| - 1]) + BookingCashback(bookings[|bookings| - 1])
  }

  /** The wallet holds exactly the cashback of the bookings made. */
  predicate Reconciled(s: S.Session)
  {
    s.user.walletBalance == Credits(s.user.bookings)
  }

  /** Booking a catalog tour keeps the wallet reconciled with the history:
      the credit is the cashback of exactly the booking appended. */
  lemma {:induction false} SubmitKeepsReconciled(s: S.Session, t: Tour, w: Widget, bookingId: string)
    requires Reconciled(s)
    requires t in Catalog.GetTours()
    ensures Submit(s, t, w, bookingId).Committed? ==> Reconciled(Submit(s, t, w, bookingId).session)
  {
    var r := Submit(s, t, w, bookingId);
    if r.Committed? {
      var bs := r.session.user.bookings;
      assert bs[..|bs| - 1] == s.user.bookings;
      Catalog.CatalogLookupRoundTrip(t);
      assert BookingCashback(r.booking) == Pricing.PriceQuote(t, w.mode, w.participants).cashback;
    }
  }

  /** Planning changes never touch the wallet or the history. */
  lemma PlanChangesKeepReconciled(s: S.Session, region: Region, id: string)
    requires Reconciled(s)
    ensures Reconciled(S.AddToPlan(s, region))
    ensures Reconciled(S.RemoveFromPlan(s, id))
    ensures Reconciled(S.ClearPlan(s))
  {
  }

  /** A fresh session is reconciled: no bookings, nothing credited. */
  lemma InitialReconciled()
    ensures Reconciled(S.InitialSession())
  {
  }

  /** Worked example: two people join the Xi'an group (6800 each, 5% couple
      discount, 5% cashback) from a fresh session. */
  lemma CoupleBookingExample()
    ensures var r := Submit(S.InitialSession(), Catalog.XianTour, Widget(Group, 2, ""), "bk_1");
      && r.Committed?
      && r.booking.totalPrice == 12920.0
      && r.booking.date == "2024-07-15"
      && r.session.user.walletBalance == 646.0
      && |r.session.user.bookings| == 1
  {
  }

  /** Worked example: a private Xi'an trip for four, without a date, is refused. */
  lemma PrivateWithoutDateExample(s: S.Session)
    ensures Submit(s, Catalog.XianTour, Widget(Private, 4, ""), "bk_2") == Rejected(DateRequired)
  {
  }
}

=== FILE: catalog.dfy ===
/** The static catalog: three tours and five map regions, with lookup by id.
    Only the fields the booking and listing logic read are kept. */
module Catalog {
  import opened Types

  const XianTour := Tour(
    "t1",
    "西安古都穿越记：兵马俑修复体验",
    "Xi’an Ancient Capital: Terracotta Warriors Restoration",
    Study,
    6800.0, 8500.0, 7500.0, 5,
    10, 8, 20,
    "2024-07-15",
    0.05, 0.03)

  const DigitalEconomyTour := Tour(
    "t2",
    "上海杭州数字经济考察团",
    "Shanghai & Hangzhou Digital Economy Delegation",
    Business,
    12800.0, 16800.0, 15800.0, 4,
    15, 12, 25,
    "2024-09-10",
    0.05, 0.05)

  const GuilinTour := Tour(
    "t3",
    "桂林山水：画中骑行之旅",
    "Guilin Landscape: Cycling in a Painting",
    Tourism,
    3200.0, 4200.0, 4500.0, 4,
    8, 2, 16,
    "2024-06-20",
    0.03, 0.02)

  const MockTours: seq<Tour> := [XianTour, DigitalEconomyTour, GuilinTour]

  const MockRegions: seq<Region> := [
    Region("r_xian", "西安", "Xi’an", 48.0, 45.0, ["t1"]),
    Region("r_shanghai", "上海", "Shanghai", 82.0, 55.0, ["t2"]),
    Region("r_guilin", "桂林", "Guilin", 62.0, 75.0, ["t3"]),
    Region("r_beijing", "北京", "Beijing", 72.0, 28.0, []),
    Region("r_chengdu", "成都", "Chengdu", 42.0, 60.0, [])
  ]

  predicate DistinctTourIds(ts: seq<Tour>)
  {
    forall i, j :: 0 <= i < j < |ts| ==> ts[i].id != ts[j].id
  }

  predicate HasTourId(ts: seq<Tour>, id: string)
  {
    exists i :: 0 <= i < |ts| && ts[i].id == id
  }

  /** Every tour id a region links to names a tour of `ts`. */
  predicate LinksResolve(r: Region, ts: seq<Tour>)
  {
    forall k :: 0 <= k < |r.linkedTourIds| ==> HasTourId(ts, r.linkedTourIds[k])
  }

  /** The whole tour catalog, in declaration order. */
  function GetTours(): (ts: seq<Tour>)
    ensures ts == MockTours
    ensures DistinctTourIds(ts)
    ensures forall i :: 0 <= i < |ts| ==> ValidTour(ts[i])
  {
    MockTours
  }

  /** The whole region catalog, in declaration order. */
  function GetRegions(): (rs: seq<Region>)
    ensures rs == MockRegions
    ensures DistinctRegionIds(rs)
    ensures forall i :: 0 <= i < |rs| ==> 0.0 <= rs[i].x <= 100.0 && 0.0 <= rs[i].y <= 100.0
    ensures forall i :: 0 <= i < |rs| ==> LinksResolve(rs[i], MockTours)
  {
    assert HasTourId(MockTours, "t1") by { assert MockTours[0].id == "t1"; }
    assert HasTourId(MockTours, "t2") by { assert MockTours[1].id == "t2"; }
    assert HasTourId(MockTours, "t3") by { assert MockTours[2].id == "t3"; }
    MockRegions
  }

  /** `Array.prototype.find` on tours by id: the first tour whose id matches. */
  function FindTour(ts: seq<Tour>, id: string): (r: Option<Tour>)
    ensures r.None? <==> !HasTourId(ts, id)
    ensures r.Some? ==> exists i :: 0 <= i < |ts| && ts[i] == r.value && r.value.id == id
                                    && forall j :: 0 <= j < i ==> ts[j].id != id
  {
    if |ts| == 0 then None
    else if ts[0].id == id then Some(ts[0])
    else
      var r := FindTour(ts[1..], id);
      assert forall i :: 0 < i < |ts| ==> ts[i] == ts[1..][i - 1];
      assert HasTourId(ts, id) ==> HasTourId(ts[1..], id) by {
        if HasTourId(ts, id) {
          var i :| 0 <= i < |ts| && ts[i].id == id;
          assert ts[1..][i - 1].id == id;
        }
      }
      if r.Some? then
        var i :| 0 <= i < |ts[1..]| && ts[1..][i] == r.value && r.value.id == id
                 && forall j :: 0 <= j < i ==> ts[1..][j].id != id;
        assert ts[i + 1] == r.value;
        assert forall j :: 0 <= j < i + 1 ==> ts[j].id != id by {
          forall j | 0 <= j < i + 1 ensures ts[j].id != id {
            if j > 0 { assert ts[j] == ts[1..][j - 1]; }
          }
        }
        r
      else r
  }

  function GetTourById(id: string): (r: Option<Tour>)
    ensures r.None? <==> !HasTourId(MockTours, id)
    ensures r.Some? ==> r.value in MockTours && r.value.id == id
  {
    FindTour(MockTours, id)
  }

  /** With distinct ids, looking up a tour's own id finds exactly that tour. */
  lemma {:induction false} FindOwnId(ts: seq<Tour>, t: Tour)
    requires DistinctTourIds(ts)
    requires t in ts
    ensures FindTour(ts, t.id) == Some(t)
  {
    if ts[0] != t {
      assert ts[0].id != t.id by {
        var k :| 0 <= k < |ts| && ts[k] == t;
        assert k != 0;
      }
      assert t in ts[1..] by {
        var k :| 0 <= k < |ts| && ts[k] == t;
        assert ts[1..][k - 1] == t;
      }
      assert DistinctTourIds(ts[1..]) by {
        forall i, j | 0 <= i < j < |ts[1..]| ensures ts[1..][i].id != ts[1..][j].id {
          assert ts[1..][i] == ts[i + 1] && ts[1..][j] == ts[j + 1];
        }
      }
      FindOwnId(ts[1..], t);
    }
  }

  /** Every catalog tour is found again by its own id. */
  lemma CatalogLookupRoundTrip(t: Tour)
    requires t in GetTours()
    ensures GetTourById(t.id) == Some(t)
  {
    FindOwnId(MockTours, t);
  }

  /** Beijing and Chengdu link no tour; the other three link exactly one. */
  lemma RegionLinkShape()
    ensures forall i :: 0 <= i < |GetRegions()| ==>
      |GetRegions()[i].linkedTourIds| == (if GetRegions()[i].id in {"r_beijing", "r_chengdu"} then 0 else 1)
  {
  }
}

=== FILE: customplan.dfy ===
/** The custom plan: the ordered list of destinations a visitor collects on
    the map, unique by region id. */
module CustomPlan {
  import opened Types

  /** Append the region unless an entry with its id is already there. */
  function Add(plan: seq<Region>, region: Region): (r: seq<Region>)
    ensures HasRegionId(r, region.id)
    ensures HasRegionId(plan, region.id) ==> r == plan
    ensures !HasRegionId(plan, region.id) ==> r == plan + [region]
    ensures DistinctRegionIds(plan) ==> DistinctRegionIds(r)
  {
    if HasRegionId(plan, region.id) then plan
    else
      var r := plan + [region];
      assert r[|plan|].id == region.id;
      r
  }

  /** Keep, in order, every entry whose id differs from `id`. */
  function Remove(plan: seq<Region>, id: string): (r: seq<Region>)
    ensures !HasRegionId(r, id)
    ensures forall x :: x in r <==> x in plan && x.id != id
    ensures |r| <= |plan|
    ensures !HasRegionId(plan, id) ==> r == plan
  {
    if |plan| == 0 then []
    else
      var rest := Remove(plan[1..], id);
      assert plan == [plan[0]] + plan[1..];
      assert !HasRegionId(plan, id) ==> !HasRegionId(plan[1..], id) by {
        if HasRegionId(plan[1..], id) {
          var i :| 0 <= i < |plan[1..]| && plan[1..][i].id == id;
          assert plan[i + 1].id == id;
        }
      }
      if plan[0].id != id then [plan[0]] + rest else rest
  }

  /** The emptied plan. */
  function Clear(): (r: seq<Region>)
    ensures |r| == 0
    ensures DistinctRegionIds(r)
  {
    []
  }

  /** Removing distributes over concatenation: the filter keeps relative order. */
  lemma {:induction false} RemoveAppend(a: seq<Region>, b: seq<Region>, id: string)
    ensures Remove(a + b, id) == Remove(a, id) + Remove(b, id)
  {
    if |a| == 0 {
      assert a + b == b;
    } else {
      assert (a + b)[1..] == a[1..] + b;
      RemoveAppend(a[1..], b, id);
    }
  }

  /** Adding is idempotent: a second add of the same region changes nothing. */
  lemma AddIdempotent(plan: seq<Region>, region: Region)
    ensures Add(Add(plan, region), region) == Add(plan, region)
  {
  }

  /** Adding a new destination and then removing it restores the plan. */
  lemma {:induction false} AddThenRemove(plan: seq<Region>, region: Region)
    requires !HasRegionId(plan, region.id)
    ensures Remove(Add(plan, region), region.id) == plan
  {
    RemoveAppend(plan, [region], region.id);
    assert Remove([region], region.id) == [] by {
      assert [region][1..] == [];
    }
    assert plan + [] == plan;
  }

  /** Removing keeps the ids distinct. */
  lemma {:induction false} RemoveKeepsDistinct(plan: seq<Region>, id: string)
    requires DistinctRegionIds(plan)
    ensures DistinctRegionIds(Remove(plan, id))
  {
    if |plan| > 0 {
      var tail := plan[1..];
      assert DistinctRegionIds(tail) by {
        forall i, j | 0 <= i < j < |tail| ensures tail[i].id != tail[j].id {
          assert tail[i] == plan[i + 1] && tail[j] == plan[j + 1];
        }
      }
      RemoveKeepsDistinct(tail, id);
      var rest := Remove(tail, id);
      if plan[0].id != id {
        var r := [plan[0]] + rest;
        forall i, j | 0 <= i < j < |r| ensures r[i].id != r[j].id {
          if i == 0 {
            assert r[j] == rest[j - 1];
          } else {
            assert r[i] == rest[i - 1] && r[j] == rest[j - 1];
          }
        }
      }
    }
  }
}

=== FILE: groupstatus.dfy ===
/** Progress of a group departure towards its minimum size, as drawn on the
    tour cards of the listing and on the tour page's photo overlay. */
module GroupStatus {
  import opened Types

  /** Whether enough people have joined for the group to depart. */
  function IsConfirmed(current: nat, min: nat): (confirmed: bool)
    ensures min == 0 ==> confirmed
    ensures confirmed <==> current >= min
  {
    current >= min
  }

  /** `Math.min(current / min * 100, 100)` on exact numbers. A zero minimum
      divides by zero: the quotient is +Infinity, capped to 100, when someone
      has joined, and NaN (here `None`) when nobody has. */
  function ProgressPercent(current: nat, min: nat): (r: Option<real>)
    ensures r.None? <==> current == 0 && min == 0
    ensures r.Some? ==> 0.0 <= r.value <= 100.0
    ensures r.Some? ==> (r.value == 100.0 <==> IsConfirmed(current, min))
    ensures 0 < min && current < min ==> r == Some(current as real / min as real * 100.0)
  {
    if min == 0 then
      (if current == 0 then None else Some(100.0))
    else
      var ratio := (current as real / min as real) * 100.0;
      assert ratio >= 0.0;
      assert ratio >= 100.0 <==> current >= min by {
        assert ratio == current as real * 100.0 / min as real;
      }
      Some(if ratio < 100.0 then ratio else 100.0)
  }

  /** The badge on a card or overlay: "full" once confirmed, otherwise how
      many more people are needed. */
  datatype Badge = Full | SeatsLeft(needed: int)

  function GroupBadge(current: nat, min: nat): (b: Badge)
    ensures b.Full? <==> IsConfirmed(current, min)
    ensures b.SeatsLeft? ==> b.needed >= 1 && current + b.needed == min
  {
    if IsConfirmed(current, min) then Full else SeatsLeft(min - current)
  }
}

=== FILE: listing.dfy ===
/** The home page listing: the category filter taken from the `cat` URL
    parameter, the filter pills and which of them is highlighted, and the
    group status each tour card shows. */
module Listing {
  import opened Types
  import Catalog
  import GroupStatus

  /** A filter value is in effect only when present and non-empty: an empty
      `cat` parameter counts as no filter, like any falsy string. */
  function IsSet(filter: Option<string>): (inEffect: bool)
    ensures inEffect <==> filter.Some? && |filter.value| > 0
  {
    filter.Some? && filter.value != ""
  }

  /** The tours whose category's name equals `name`, in their original order. */
  function OfCategory(tours: seq<Tour>, name: string): (r: seq<Tour>)
    ensures forall t :: t in r <==> t in tours && t.category.Name() == name
    ensures |r| <= |tours|
  {
    if |tours| == 0 then []
    else
      assert tours == [tours[0]] + tours[1..];
      var rest := OfCategory(tours[1..], name);
      if tours[0].category.Name() == name then [tours[0]] + rest else rest
  }

  /** The tours the listing shows for a `cat` parameter. */
  function ListedTours(filter: Option<string>): (r: seq<Tour>)
    ensures !IsSet(filter) ==> r == Catalog.GetTours()
    ensures IsSet(filter) ==>
      forall t :: t in r <==> t in Catalog.GetTours() && t.category.Name() == filter.value
  {
    var all := Catalog.GetTours();
    if IsSet(filter) then OfCategory(all, filter.value) else all
  }

  /** Filtering keeps relative order: it distributes over concatenation. */
  lemma {:induction false} OfCategoryAppend(a: seq<Tour>, b: seq<Tour>, name: string)
    ensures OfCategory(a + b, name) == OfCategory(a, name) + OfCategory(b, name)
  {
    if |a| == 0 {
      assert a + b == b;
    } else {
      assert (a + b)[1..] == a[1..] + b;
      OfCategoryAppend(a[1..], b, name);
    }
  }

  /** Filtering an already filtered list by the same category changes nothing. */
  lemma {:induction false} OfCategoryIdempotent(tours: seq<Tour>, name: string)
    ensures OfCategory(OfCategory(tours, name), name) == OfCategory(tours, name)
  {
    if |tours| > 0 {
      OfCategoryIdempotent(tours[1..], name);
      var rest := OfCategory(tours[1..], name);
      if tours[0].category.Name() == name {
        assert ([tours[0]] + rest)[1..] == rest;
      }
    }
  }

  /** Each category pill lists exactly its catalog tours, in catalog order;
      a category name that no tour has lists nothing. */
  lemma CategoryListings()
    ensures ListedTours(Some("STUDY")) == [Catalog.XianTour]
    ensures ListedTours(Some("BUSINESS")) == [Catalog.DigitalEconomyTour]
    ensures ListedTours(Some("TOURISM")) == [Catalog.GuilinTour]
    ensures ListedTours(Some("ALL")) == []
  {
    var all := Catalog.MockTours;
    assert all[1..] == [Catalog.DigitalEconomyTour, Catalog.GuilinTour];
    assert all[1..][1..] == [Catalog.GuilinTour];
    assert all[1..][1..][1..] == [];
  }

  /** The pill ids, in the order the pills are drawn. */
  const PillIds: seq<string> := ["ALL", "STUDY", "BUSINESS", "TOURISM"]

  /** The URL parameter a pill sets when clicked: "ALL" clears it. */
  function PillTarget(id: string): (filter: Option<string>)
    ensures id == "ALL" <==> filter.None?
    ensures filter.Some? ==> filter.value == id
  {
    if id == "ALL" then None else Some(id)
  }

  /** A pill is highlighted when the filter is its id, or there is no filter
      and it is the "ALL" pill. */
  function PillActive(filter: Option<string>, id: string): (active: bool)
    ensures active && id != "ALL" ==> filter == Some(id)
    ensures filter.None? ==> (active <==> id == "ALL")
    ensures !IsSet(filter) ==> (active <==> id == "ALL" || filter == Some(id))
    ensures IsSet(filter) ==> (active <==> filter.value == id)
  {
    filter == Some(id) || (!IsSet(filter) && id == "ALL")
  }

  function ActiveCount(filter: Option<string>, ids: seq<string>): nat
    decreases |ids|
  {
    if |ids| == 0 then 0
    else (if PillActive(filter, ids[0]) then 1 else 0) + ActiveCount(filter, ids[1..])
  }

  /** Exactly one pill is highlighted when the filter is absent, empty or one
      of the pill ids; none is for any other value. */
  lemma ExactlyOnePillActive(filter: Option<string>)
    ensures ActiveCount(filter, PillIds) == (if !IsSet(filter) || filter.value in PillIds then 1 else 0)
  {
    assert PillIds[1..] == ["STUDY", "BUSINESS", "TOURISM"];
    assert PillIds[1..][1..] == ["BUSINESS", "TOURISM"];
    assert PillIds[1..][1..][1..] == ["TOURISM"];
    assert PillIds[1..][1..][1..][1..] == [];
  }

  /** After clicking a pill, that pill and no other is highlighted. */
  lemma ClickedPillIsTheActiveOne(id: string, other: string)
    requires id in PillIds && other in PillIds
    ensures PillActive(PillTarget(id), other) <==> other == id
  {
  }

  /** What a tour card shows about its group: the progress bar's width and
      the badge in its corner. */
  datatype Card = Card(progress: Option<real>, badge: GroupStatus.Badge)

  function CardStatus(t: Tour): (c: Card)
    ensures c.badge.Full? <==> GroupStatus.IsConfirmed(t.currentGroupSize, t.minGroupSize)
    ensures c.badge.SeatsLeft? ==> c.badge.needed >= 1 && t.currentGroupSize + c.badge.needed == t.minGroupSize
    ensures c.progress.None? <==> t.currentGroupSize == 0 && t.minGroupSize == 0
    ensures c.progress.Some? ==> 0.0 <= c.progress.value <= 100.0
    ensures 0 < t.minGroupSize && t.currentGroupSize < t.minGroupSize ==>
      c.progress == Some(t.currentGroupSize as real / t.minGroupSize as real * 100.0)
    ensures c.badge.Full? && c.progress.Some? ==> c.progress.value == 100.0
  {
    Card(GroupStatus.ProgressPercent(t.currentGroupSize, t.minGroupSize),
         GroupStatus.GroupBadge(t.currentGroupSize, t.minGroupSize))
  }

  /** None of the catalog's groups has reached its minimum yet: every card
      shows how many seats are still needed (2, 3 and 6). */
  lemma CatalogCardsAllOpen()
    ensures CardStatus(Catalog.XianTour).badge == GroupStatus.SeatsLeft(2)
    ensures CardStatus(Catalog.DigitalEconomyTour).badge == GroupStatus.SeatsLeft(3)
    ensures CardStatus(Catalog.GuilinTour).badge == GroupStatus.SeatsLeft(6)
  {
  }
}

=== FILE: pricing.dfy ===
/** The pricing and rewards engine of the tour booking widget: the per-person
    base price of the chosen mode, the tiered group discount, the total, and
    the cashback and referral commission earned on that total. Everything is
    exact rational arithmetic. */
module Pricing {
  import opened Types
  import Catalog

  /** Which discount tier applies; the widget shows a label per tier. */
  datatype Tier = BaseTier | CoupleTier | GroupTier

  datatype Quote = Quote(
    basePrice: real,
    discountRate: real,
    tier: Tier,
    totalPrice: real,
    cashback: real,
    commission: real
  )

  /** The per-person price before any discount. */
  function BasePrice(t: Tour, mode: Mode): (r: real)
    ensures mode == Group ==> r == t.price
    ensures mode == Private ==> r == t.privatePrice
  {
    if mode == Group then t.price else t.privatePrice
  }

  /** The discount tier: couples and groups of three or more get a discount,
      but only when joining the group departure. */
  function DiscountTier(mode: Mode, participants: int): (tier: Tier)
    ensures tier == CoupleTier <==> mode == Group && participants == 2
    ensures tier == GroupTier <==> mode == Group && participants >= 3
  {
    if mode == Group && participants == 2 then CoupleTier
    else if mode == Group && participants >= 3 then GroupTier
    else BaseTier
  }

  function TierRate(tier: Tier): real
  {
    match tier
    case BaseTier => 0.0
    case CoupleTier => 0.05
    case GroupTier => 0.08
  }

  /** The discount rate for a mode and head count. */
  function DiscountRate(mode: Mode, participants: int): (rate: real)
    ensures 0.0 <= rate < 1.0
    ensures mode == Private ==> rate == 0.0
    ensures mode == Group && participants <= 1 ==> rate == 0.0
    ensures mode == Group && participants == 2 ==> rate == 0.05
    ensures mode == Group && participants >= 3 ==> rate == 0.08
  {
    TierRate(DiscountTier(mode, participants))
  }

  /** The full quote the widget displays and the booking records. */
  function PriceQuote(t: Tour, mode: Mode, participants: int): (q: Quote)
    ensures q.basePrice == BasePrice(t, mode)
    ensures q.discountRate == DiscountRate(mode, participants)
    ensures q.tier == DiscountTier(mode, participants)
    ensures q.discountRate == TierRate(q.tier)
    ensures q.totalPrice == q.basePrice * (1.0 - q.discountRate) * participants as real
    ensures q.cashback == q.totalPrice * t.cashbackRate
    ensures q.commission == q.totalPrice * t.commissionRate
  {
    var base := BasePrice(t, mode);
    var tier := DiscountTier(mode, participants);
    var rate := TierRate(tier);
    var finalPerPerson := base * (1.0 - rate);
    var total := finalPerPerson * participants as real;
    Quote(base, rate, tier, total, total * t.cashbackRate, total * t.commissionRate)
  }

  /** The undiscounted line of the price breakdown: base times head count. */
  function Gross(q: Quote, participants: int): real
  {
    q.basePrice * participants as real
  }

  /** The "Discount" line of the breakdown is drawn only when a rate applies. */
  function ShowsDiscountLine(q: Quote): (shown: bool)
    ensures shown <==> q.discountRate > 0.0
  {
    q.discountRate > 0.0
  }

  /** The tier label under the stepper is drawn for group bookings of two or more. */
  function ShowsTierLabel(mode: Mode, participants: int): (shown: bool)
    ensures shown <==> mode == Group && participants >= 2
  {
    mode == Group && participants > 1
  }

  /** The participant stepper's minus button. */
  function Decrement(participants: int): (r: int)
    ensures r >= 1
    ensures participants > 1 ==> r == participants - 1
    ensures participants <= 1 ==> r == 1
  {
    if participants - 1 > 1 then participants - 1 else 1
  }

  /** The participant stepper's plus button: no upper bound is enforced. */
  function Increment(participants: int): (r: int)
    ensures r == participants + 1
  {
    participants + 1
  }

  lemma RateStep(a: real, b: real, p: real)
    requires a >= 0.0 && p >= 0.0 && 0.0 <= b <= 1.0
    ensures 0.0 <= a * (1.0 - b) * p <= a * p
  {
    assert 0.0 <= a * (1.0 - b) <= a;
    assert a * (1.0 - b) * p <= a * p;
  }

  lemma ShareWithin(total: real, share: real, rate: real)
    requires total >= 0.0 && IsRate(rate) && share == total * rate
    ensures 0.0 <= share <= total
  {
    assert total * rate <= total * 1.0;
  }

  /** The discount never raises the price: the total lies between zero and the
      undiscounted gross, and the displayed discount amount reconciles exactly
      with the gross and the total. */
  lemma TotalWithinGross(t: Tour, mode: Mode, participants: int)
    requires ValidTour(t) && participants >= 0
    ensures var q := PriceQuote(t, mode, participants);
      && 0.0 <= q.totalPrice <= Gross(q, participants)
      && Gross(q, participants) - q.totalPrice == Gross(q, participants) * q.discountRate
  {
    var q := PriceQuote(t, mode, participants);
    RateStep(q.basePrice, q.discountRate, participants as real);
  }

  /** A discount line is on screen exactly when the booking is a group booking
      of two or more, i.e. exactly when the tier label is on screen, and its
      amount is then positive for a priced tour. */
  lemma {:induction false} DiscountLineIffTierLabel(t: Tour, mode: Mode, participants: int)
    ensures var q := PriceQuote(t, mode, participants);
      && (ShowsDiscountLine(q) <==> ShowsTierLabel(mode, participants))
      && (ShowsDiscountLine(q) && q.basePrice > 0.0 ==> Gross(q, participants) - q.totalPrice > 0.0)
  {
    var q := PriceQuote(t, mode, participants);
    if ShowsDiscountLine(q) && q.basePrice > 0.0 {
      assert participants >= 2;
      assert Gross(q, participants) - q.totalPrice == q.basePrice * participants as real * q.discountRate;
      assert q.basePrice * participants as real > 0.0;
    }
  }

  /** Cashback and referral commission are each a share of the total, between
      nothing and all of it. */
  lemma RewardsWithinTotal(t: Tour, mode: Mode, participants: int)
    requires ValidTour(t) && participants >= 0
    ensures var q := PriceQuote(t, mode, participants);
      && 0.0 <= q.cashback <= q.totalPrice
      && 0.0 <= q.commission <= q.totalPrice
  {
    var q := PriceQuote(t, mode, participants);
    TotalWithinGross(t, mode, participants);
    ShareWithin(q.totalPrice, q.cashback, t.cashbackRate);
    ShareWithin(q.totalPrice, q.commission, t.commissionRate);
  }

  /** The tiers never make it cheaper overall to bring one more person:
      the total grows with the head count (1 -> 2 -> 3 -> ...). */
  lemma {:induction false} TotalMonotoneInParticipants(t: Tour, mode: Mode, participants: int)
    requires ValidTour(t) && participants >= 1
    ensures PriceQuote(t, mode, participants).totalPrice <= PriceQuote(t, mode, participants + 1).totalPrice
  {
    var b := BasePrice(t, mode);
    var p := participants as real;
    if mode == Private || participants >= 3 {
      var f := b * (1.0 - DiscountRate(mode, participants));
      assert f >= 0.0;
      assert f * p <= f * (p + 1.0);
    } else if participants == 1 {
      assert b * 1.0 * 1.0 <= b * 0.95 * 2.0;
    } else {
      assert b * 0.95 * 2.0 <= b * 0.92 * 3.0;
    }
  }

  /** Private bookings are never discounted: the total is the private price
      times the head count, whatever that count is. */
  lemma PrivateNeverDiscounted(t: Tour, participants: int)
    ensures PriceQuote(t, Private, participants).totalPrice == t.privatePrice * participants as real
    ensures PriceQuote(t, Private, participants).tier == BaseTier
  {
  }

  /** Worked examples on the Xi'an tour (group 6800, private 8500 per person):
      one person pays the base price, a couple gets 5% off, four in a group
      get 8% off, and four on a private trip pay the full private price. */
  lemma XianQuotes()
    ensures PriceQuote(Catalog.XianTour, Group, 1).totalPrice == 6800.0
    ensures PriceQuote(Catalog.XianTour, Group, 1).tier == BaseTier
    ensures PriceQuote(Catalog.XianTour, Group, 2).totalPrice == 12920.0
    ensures PriceQuote(Catalog.XianTour, Group, 2).tier == CoupleTier
    ensures PriceQuote(Catalog.XianTour, Group, 2).cashback == 646.0
    ensures PriceQuote(Catalog.XianTour, Group, 4).totalPrice == 25024.0
    ensures PriceQuote(Catalog.XianTour, Group, 4).tier == GroupTier
    ensures PriceQuote(Catalog.XianTour, Private, 4).totalPrice == 34000.0
    ensures PriceQuote(Catalog.XianTour, Private, 4).tier == BaseTier
  {
  }
}

=== FILE: session.dfy ===
/** The in-memory session store shared by every page: the signed-in user
    (wallet and booking history), the interface language, two panel flags and
    the custom plan. Each operation is a pure step from one session to the next. */
module Session {
  import opened Types
  import CustomPlan

  datatype Session = Session(
    user: User,
    language: Language,
    cartOpen: bool,
    chatOpen: bool,
    plan: seq<Region>
  )

  /** The invariants the store keeps: a wallet that never goes negative, a
      plan without duplicate destinations, and bookings for at least one
      person at a non-negative price. */
  predicate Invariant(s: Session)
  {
    && s.user.walletBalance >= 0.0
    && DistinctRegionIds(s.plan)
    && forall k :: 0 <= k < |s.user.bookings| ==>
         s.user.bookings[k].participants >= 1 && s.user.bookings[k].totalPrice >= 0.0
  }

  /** The account fields no operation of the store touches. */
  predicate SameAccount(u: User, v: User)
  {
    u.id == v.id && u.name == v.name && u.referralCode == v.referralCode && u.isMember == v.isMember
  }

  /** Everything outside the user record is the same. */
  predicate SameSurroundings(s: Session, r: Session)
  {
    r.language == s.language && r.cartOpen == s.cartOpen && r.chatOpen == s.chatOpen
  }

  function DefaultUser(): (u: User)
    ensures u.walletBalance == 0.0
    ensures |u.bookings| == 0
    ensures u.isMember
  {
    User("u_12345", "Alex Chen", 0.0, "ALEX888", true, [])
  }

  /** The session a fresh page load starts with. */
  function InitialSession(): (s: Session)
    ensures s.user == DefaultUser()
    ensures s.language == Zh && !s.cartOpen && !s.chatOpen
    ensures |s.plan| == 0
    ensures Invariant(s)
  {
    Session(DefaultUser(), Zh, false, false, [])
  }

  /** Credit the wallet; nothing else changes. */
  function AddToWallet(s: Session, amount: real): (r: Session)
    ensures r.user.walletBalance == s.user.walletBalance + amount
    ensures r.user.bookings == s.user.bookings
    ensures SameAccount(s.user, r.user) && SameSurroundings(s, r) && r.plan == s.plan
    ensures Invariant(s) && amount >= 0.0 ==> Invariant(r)
  {
    s.(user := s.user.(walletBalance := s.user.walletBalance + amount))
  }

  /** Append a booking to the history; the wallet is not credited here. */
  function AddBooking(s: Session, b: Booking): (r: Session)
    ensures |r.user.bookings| == |s.user.bookings| + 1
    ensures r.user.bookings[..|s.user.bookings|] == s.user.bookings
    ensures r.user.bookings[|s.user.bookings|] == b
    ensures r.user.walletBalance == s.user.walletBalance
    ensures SameAccount(s.user, r.user) && SameSurroundings(s, r) && r.plan == s.plan
    ensures Invariant(s) && b.participants >= 1 && b.totalPrice >= 0.0 ==> Invariant(r)
  {
    var r := s.(user := s.user.(bookings := s.user.bookings + [b]));
    assert r.user.bookings[..|s.user.bookings|] == s.user.bookings;
    r
  }

  /** Add a destination to the plan unless one with its id is there already. */
  function AddToPlan(s: Session, region: Region): (r: Session)
    ensures r.plan == CustomPlan.Add(s.plan, region)
    ensures HasRegionId(r.plan, region.id)
    ensures HasRegionId(s.plan, region.id) ==> r == s
    ensures !HasRegionId(s.plan, region.id) ==> r.plan == s.plan + [region]
    ensures r.user == s.user && SameSurroundings(s, r)
    ensures Invariant(s) ==> Invariant(r)
  {
    s.(plan := CustomPlan.Add(s.plan, region))
  }

  /** Drop every plan entry with the given id. */
  function RemoveFromPlan(s: Session, id: string): (r: Session)
    ensures r.plan == CustomPlan.Remove(s.plan, id)
    ensures !HasRegionId(r.plan, id)
    ensures forall x :: x in r.plan <==> x in s.plan && x.id != id
    ensures !HasRegionId(s.plan, id) ==> r == s
    ensures r.user == s.user && SameSurroundings(s, r)
    ensures Invariant(s) ==> Invariant(r)
  {
    var r := s.(plan := CustomPlan.Remove(s.plan, id));
    assert Invariant(s) ==> Invariant(r) by {
      if Invariant(s) {
        CustomPlan.RemoveKeepsDistinct(s.plan, id);
      }
    }
    r
  }

  /** Empty the plan, whatever it held. */
  function ClearPlan(s: Session): (r: Session)
    ensures |r.plan| == 0
    ensures r.user == s.user && SameSurroundings(s, r)
    ensures Invariant(s) ==> Invariant(r)
  {
    s.(plan := CustomPlan.Clear())
  }

  /** Recording a booking and crediting the wallet are independent effects:
      applying them in either order gives the same session. */
  lemma CommitOrderIrrelevant(s: Session, b: Booking, amount: real)
    ensures AddToWallet(AddBooking(s, b), amount) == AddBooking(AddToWallet(s, amount), b)
  {
  }

  /** Two credits add up to one credit of their sum. */
  lemma CreditsAccumulate(s: Session, a: real, b: real)
    ensures AddToWallet(AddToWallet(s, a), b) == AddToWallet(s, a + b)
  {
  }
}

=== FILE: types.dfy ===
/** The entities of the booking site: tours, map regions, the signed-in user
    and the bookings they make. Money, rates and map percentages are exact
    `real` values; group sizes are whole numbers. Localised prose (subtitles,
    descriptions, itineraries, images) is inert display data and is not part
    of the model, except the two tour titles a booking snapshots. */
module Types {

  datatype Option<+T> = None | Some(value: T)

  /** The two interface languages; the session starts in Chinese. */
  datatype Language = Zh | En

  datatype Category = Study | Tourism | Business
  {
    /** The enum's string value, as it appears in the `cat` URL parameter. */
    function Name(): string
    {
      match this
      case Study => "STUDY"
      case Tourism => "TOURISM"
      case Business => "BUSINESS"
    }
  }

  /** How a tour is booked: joining the fixed-date group or a private trip. */
  datatype Mode = Group | Private

  datatype Status = Pending | Confirmed | Completed

  datatype Tour = Tour(
    id: string,
    title: string,
    titleEn: string,
    category: Category,
    price: real,            // per-person group price
    privatePrice: real,     // per-person private price
    originalPrice: real,    // struck-through reference price, display only
    days: nat,
    minGroupSize: nat,
    currentGroupSize: nat,
    maxGroupSize: nat,
    startDate: string,      // the fixed departure date of the group
    cashbackRate: real,
    commissionRate: real
  )

  /** The tour title shown (and snapshotted on a booking) in a language. */
  function TitleIn(t: Tour, lang: Language): (title: string)
    ensures lang == En ==> title == t.titleEn
    ensures lang == Zh ==> title == t.title
  {
    if lang == En then t.titleEn else t.title
  }

  /** A fraction that may be applied to a money amount. */
  predicate IsRate(x: real)
  {
    0.0 <= x <= 1.0
  }

  /** The data invariants every catalog tour is meant to satisfy. */
  predicate ValidTour(t: Tour)
  {
    && t.price >= 0.0
    && t.privatePrice >= 0.0
    && t.currentGroupSize <= t.maxGroupSize
    && t.minGroupSize <= t.maxGroupSize
    && IsRate(t.cashbackRate)
    && IsRate(t.commissionRate)
  }

  datatype Region = Region(
    id: string,
    name: string,
    nameEn: string,
    x: real,                // map X position, percent of the map width
    y: real,                // map Y position, percent of the map height
    linkedTourIds: seq<string>
  )

  /** Some region in the list has this id. */
  predicate HasRegionId(rs: seq<Region>, id: string)
  {
    exists i :: 0 <= i < |rs| && rs[i].id == id
  }

  /** No two regions in the list share an id. */
  predicate DistinctRegionIds(rs: seq<Region>)
  {
    forall i, j :: 0 <= i < j < |rs| ==> rs[i].id != rs[j].id
  }

  datatype Booking = Booking(
    id: string,
    tourId: string,
    tourTitle: string,
    date: string,
    participants: int,
    totalPrice: real,
    kind: Mode,
    status: Status
  )

  datatype User = User(
    id: string,
    name: string,
    walletBalance: real,
    referralCode: string,
    isMember: bool,
    bookings: seq<Booking>
  )
}
